=== FILE: README.md ===
# Smooth scrolling with bounce for a Dear ImGui window

A Dafny model of the inertial-scroll add-on in
`examples/example_win32_directx9/main.cpp` of this Dear ImGui fork. It covers
the tuning constants and the per-window `SmoothScrollState` map, the easing
step `EaseOut`, the per-frame physics step `ApplySmoothScroll`, and the
geometry and animation part of `RenderSmoothScrollbar`.

Numbers are Dafny `real`s. `std::exp` is not computed. A frame carries its
elapsed time `dt` together with `decay = exp(-dt)`. That value is positive,
at most 1, and exactly 1 when `dt` is 0. Every easing speed the code uses
(8, 12 and 15) is a whole number, so `exp(-speed*dt)` is exactly
`decay^speed` (`ImMath.Pow`). The easing factor `1 - exp(-speed*dt)`
therefore lies in [0, 1) and is 0 exactly when `dt` is 0.

Modules, one per part of the program:

- `ImMath` (`immath.dfy`): `ImClamp`, `ImSaturate`, `ImMax`, `ImMin`,
  `std::abs`, `ImVec2` and `ImRect`, and the power used for `exp`.
  imgui_internal.h is not part of this model. These helpers follow its usual
  definitions.
- `Easing` (`easing.dfy`): the frame time and `EaseOut`.
- `SmoothScroll` (`smooth_scroll.dfy`): the state record, the state map and
  `ApplySmoothScroll`. The step is split into its source blocks: `Adopt`
  (lazy initialisation), `AddImpulse`, `Integrate` (which uses `Collide` and
  `Brake`), `RelaxOverscroll` and `Follow`.
- `ScrollProperties` (`scroll_properties.dfy`): whole-frame properties.
- `Settling` (`settling.dfy`): momentum over many frames without input.
- `Scrollbar` (`scrollbar.dfy`): the scrollbar geometry, its animation and
  the draw commands.

Behaviour of the code as written, proved about the model:

- The overscroll is negative after a hit at the top and positive after a
  hit at the bottom (main.cpp:66-68, `SmoothScroll.Collide`). The renderer shifts the grab by
  `-0.2 * overscroll` (line 133). So at the top, a bounce pushes the grab
  down into the track, and at the bottom it pulls the grab up
  (`Scrollbar.GrabTarget`).
- A fast hit needs a speed strictly above 50. One wheel notch pushing past
  the top gives exactly 50, so it stops without overscroll. Only more than
  one notch bounces (`ScrollProperties.PushPastTop`).
- A velocity of at most 0.1 is never integrated and never snapped. Without
  input it stays as it is forever, though it moves nothing
  (`Settling.IdleVelocityIsInert`).
- A frame with `dt == 0` is not always the identity. The two snaps to zero
  still fire (`ScrollProperties.ZeroTimeStep`).
- When `ScrollMax.y` shrinks below a resting target, nothing clamps the
  target again. The scroll written back then lies beyond the new maximum
  (`ScrollProperties.ShrunkRangeNotReclamped`).

This model follows main.cpp, which keeps a single `overscroll` field and
reverses the velocity by the bounce strength.

## Model

| member | source | states |
|---|---|---|
| `Easing.Factor` | examples/example_win32_directx9/main.cpp:33 | `1 - exp(-speed*dt)` lies in [0, 1) and is 0 exactly when no time passes (or the speed is 0) |
| `Easing.EaseOut` | examples/example_win32_directx9/main.cpp:32-34 | the eased value lies between current and target and never overshoots; it is the identity when `dt == 0` or current equals target, and otherwise strictly closes the gap |
| `ImMath.Pow` | examples/example_win32_directx9/main.cpp:33 | `exp(-dt)^speed` stays in (0, 1], is 1 when `exp(-dt)` is, and is below 1 once time passes |
| `SmoothScroll.Adopt` | examples/example_win32_directx9/main.cpp:44-48 | a state whose current and target read zero takes both from the window's scroll; any other state is kept whole |
| `SmoothScroll.AddImpulse` | examples/example_win32_directx9/main.cpp:50-53 | the velocity grows by exactly 50 per wheel unit and nothing else changes |
| `SmoothScroll.Collide` | examples/example_win32_directx9/main.cpp:59-75 | the target ends in `[0, ScrollMax.y]` on the boundary it crossed; a fast hit reverses the velocity and shrinks it to 0.15 of itself, with overscroll exactly `ImClamp(target, -60, 0)`, in [-60, 0), at the top and `ImClamp(target - ScrollMax.y, 0, 60)`, in (0, 60], at the bottom; a slow hit zeroes the velocity and keeps the overscroll; an in-range target changes nothing |
| `SmoothScroll.Brake` | examples/example_win32_directx9/main.cpp:77-81 | the braked velocity keeps its direction, is at rest or at least 0.5, shrinks at least by `exp(-8*dt)`, and is unchanged when no time passes and it is at least 0.5 |
| `SmoothScroll.BrakeKeepsDecayed` | examples/example_win32_directx9/main.cpp:77-81 | a velocity whose decayed speed `|v| * exp(-8*dt)` is at least 0.5 comes out as exactly `v * exp(-8*dt)` |
| `SmoothScroll.BrakeStopsDecayed` | examples/example_win32_directx9/main.cpp:77-81 | a velocity whose decayed speed `|v| * exp(-8*dt)` is below 0.5 comes out as exactly 0 |
| `SmoothScroll.Move` | examples/example_win32_directx9/main.cpp:57-81 | after a move the target is in range, the velocity is at rest or at least 0.5, and the velocity is within `exp(-8*dt)` of its old speed; an overscroll of at most 60 stays so |
| `SmoothScroll.Integrate` | examples/example_win32_directx9/main.cpp:55-82 | a velocity of at most 0.1 leaves the state unchanged; a faster one leaves the target in range and the velocity at rest or at least 0.5, never faster than before |
| `SmoothScroll.IntegrateResolvesHit` | examples/example_win32_directx9/main.cpp:56-75 | an out-of-range tentative target goes back to the boundary it crossed; without a hit the velocity keeps its direction and the overscroll is kept; a fast hit reverses the velocity, at most 0.15 of its old speed, with a signed overscroll of at most 60; a slow hit stops it |
| `SmoothScroll.RelaxOverscroll` | examples/example_win32_directx9/main.cpp:84-89 | an overscroll above 0.1 in magnitude becomes exactly `o * exp(-12*dt)`, keeping its sign; once time passes any non-zero overscroll strictly shrinks; one of at most 0.1 snaps to exactly 0 |
| `SmoothScroll.Follow` | examples/example_win32_directx9/main.cpp:91-95 | the visible position moves toward the target without overshooting, strictly closes a remaining gap once time passes, and nothing else changes |
| `SmoothScroll.ApplySmoothScroll` | examples/example_win32_directx9/main.cpp:37-96 | a null window or `ScrollMax.y <= 0` changes nothing and creates no entry; otherwise only that window's entry is created or updated, and the window's scroll becomes the entry's new visible position |
| `SmoothScroll.StateOf` | examples/example_win32_directx9/main.cpp:42 | `g_ScrollStates[id]` reads the stored state, or the all-zero state when the window has no entry yet |
| `SmoothScroll.Step` | examples/example_win32_directx9/main.cpp:44-95 | for any wheel input, a frame keeps the target, the visible position and the written scroll in `[0, ScrollMax.y]` and the overscroll within 60; it does not touch the scrollbar's animation fields |
| `ScrollProperties.WrittenScrollInRange` | examples/example_win32_directx9/main.cpp:92-95 | the scroll written back to the window lies in `[0, ScrollMax.y]` when the stored state (or the fresh all-zero state) was consistent |
| `ScrollProperties.ZeroTimeStep` | examples/example_win32_directx9/main.cpp:56-92 | with `dt == 0` and no wheel input a settled frame is the identity exactly when the velocity is not between 0.1 and 0.5 and the overscroll is 0 or above 0.1 |
| `ScrollProperties.PushPastTop` | examples/example_win32_directx9/main.cpp:51-75 | pushing past the top while resting there keeps the target and position at 0; a faint push stays an idle velocity, up to one notch stops with no overscroll, more bounces with overscroll in [-60, 0] |
| `ScrollProperties.ShrunkRangeNotReclamped` | examples/example_win32_directx9/main.cpp:56-95 | a resting target above a shrunk `ScrollMax.y` is written back unclamped |
| `Settling.StepWithoutInput` | examples/example_win32_directx9/main.cpp:56-81 | one frame without input keeps a velocity of at most 0.1, and brings a faster one to rest or to at least 0.5 within `exp(-8*dt)` of its old speed |
| `Settling.IdleVelocityIsInert` | examples/example_win32_directx9/main.cpp:56 | a velocity of at most 0.1 survives any number of frames without input |
| `Settling.CoastSlows` | examples/example_win32_directx9/main.cpp:77-81 | after n frames without input a moving velocity is at rest or within `exp(-8*dt)^n` of its initial speed |
| `Settling.VelocityComesToRest` | examples/example_win32_directx9/main.cpp:77-81 | with `dt > 0` and no input, a moving velocity is exactly 0 after `⌊2*speed / (1 - exp(-8*dt))⌋ + 1` frames and after every later frame |
| `Settling.RelaxedIsDamped` | examples/example_win32_directx9/main.cpp:84-88 | n frames of the overscroll relaxation equal n frames of "keep the fraction `exp(-12*dt)` above 0.1, else zero" |
| `Settling.DampedIsGeometric` | examples/example_win32_directx9/main.cpp:84-88 | after n such frames the overscroll is exactly 0 or exactly `o * exp(-12*dt)^n` |
| `Settling.OverscrollReturnsToZero` | examples/example_win32_directx9/main.cpp:84-88 | with `dt > 0` the overscroll is exactly 0 after `⌊10*|o| / (1 - exp(-12*dt))⌋ + 2` frames and after every later frame |
| `Scrollbar.TrackRect` | examples/example_win32_directx9/main.cpp:111-118 | the track is `ScrollbarSize` wide at the window's right edge and spans from below the title bar to the bottom |
| `Scrollbar.GrabNorm` | examples/example_win32_directx9/main.cpp:122-124 | the grab fraction lies in [0.05, 1] and equals the visible fraction of the content when that is in range |
| `Scrollbar.GrabPixels` | examples/example_win32_directx9/main.cpp:125 | the grab length is at least `GrabMinSize` and at least the fraction of the track |
| `Scrollbar.GrabTarget` | examples/example_win32_directx9/main.cpp:127-133 | when the grab fits, its target lies in `[0, height - grab]`; it is proportional to the scroll without overscroll, and 0 at the top and the free length at the bottom unless overscroll shifts it; at the top a negative overscroll moves it down by a fifth of the overscroll, and at the bottom a positive one moves it up by the same amount, clamped into the track |
| `Scrollbar.ComputeGeometry` | examples/example_win32_directx9/main.cpp:108-133 | the grab fraction lies in [0.05, 1], the grab is at least `GrabMinSize` long, and its target lies in the free track length when the grab fits |
| `Scrollbar.GrabRect` | examples/example_win32_directx9/main.cpp:139-148 | the grab rectangle is inset by the 2-pixel padding and lies vertically inside the track; an offset that keeps the grab in the track is not clamped |
| `Scrollbar.HoverAlpha` | examples/example_win32_directx9/main.cpp:151-152 | the multiplier is 1 exactly when hovered, 0.6 otherwise |
| `Scrollbar.RenderSmoothScrollbar` | examples/example_win32_directx9/main.cpp:99-160 | `ScrollMax.y <= 0` changes nothing and draws nothing. Otherwise the window's entry exists afterwards and no other entry changes. A track of height 0 or less leaves the entry as it read and draws nothing. A taller track changes only the entry's grab offset and alpha, each easing toward its target, and draws two rectangles: the track at 0.4 of the alpha, then the grab inside the track at the alpha times the hover multiplier; `Scrollbar.RenderDrawsGrab` pins that grab to the exact rectangle of lines 140-148 |
| `Scrollbar.RenderAnimationSteps` | examples/example_win32_directx9/main.cpp:135-137 | the new grab offset is exactly `EaseOut(grab_anim, target, 15, dt)` and the new alpha exactly `EaseOut(alpha, 1, 8, dt)`; once time passes each strictly closes a remaining gap to its target |
| `Scrollbar.RenderDrawsGrab` | examples/example_win32_directx9/main.cpp:139-159 | the second rectangle drawn is exactly the grab rectangle at the new grab offset and the grab length (2-pixel horizontal inset, vertical clamp into the track), in the grab colour at the alpha times the hover multiplier, with rounding 3 |
| `Scrollbar.AnimationStaysInTrack` | examples/example_win32_directx9/main.cpp:135-148 | an alpha in [0, 1] stays there and never decreases; a grab offset within the free track length stays within it, so the drawn grab is unclamped and exactly the grab length |
| `Scrollbar.FifthOfContentGrab` | examples/example_win32_directx9/main.cpp:122-125 | 300 visible pixels of 1500 on a 600-pixel track give a fraction of 0.2 and a 120-pixel grab |

## Left out

- `main`, `CreateDeviceD3D`, `CleanupDeviceD3D`, `ResetDevice` and `WndProc` (main.cpp:163-373) are left out. They are Win32 and Direct3D 9 setup, the message loop and resize handling, with no logic to state. The main loop's per-frame call is modelled only as the repeated frames of `Settling.Coast`.
- The debug `Text` output is left out. So is the lookup at main.cpp:265, which creates the window's entry before `ApplySmoothScroll` runs.
- Calls into the framework are left out or become inputs. `GetCurrentWindow`, `TitleBarHeight`, `InnerRect`, `ContentSize` and the style become plain inputs. `GetColorU32` becomes a colour slot with an alpha multiplier. `GetForegroundDrawList` and `AddRectFilled` become the returned list of draw commands.
- Hover detection with `bb.Contains(MousePos)` is left out. It is a boolean input, and only the 1.0/0.6 choice is modelled.
- IEEE single-precision rounding is left out. Numbers are reals, so the constants 0.1, 0.15 and 0.2 are exact here but not in `float`. A comparison that lands exactly on a threshold may go the other way in the program.
- `std::exp` is not computed. Each frame supplies `exp(-dt)`, and only whole-number easing speeds are expressible, which covers every speed the code uses.
- Negative frame times are left out. Every operation requires `dt >= 0`, which Dear ImGui guarantees for `DeltaTime`.
- `Scrollbar.RenderSmoothScrollbar`: requires the content extent (`ContentSize.y + 2 * WindowPadding.y`) to be positive whenever the grab is computed. Dear ImGui reports a positive `ScrollMax.y` only when the content is taller than the inner rect, so the program never divides by zero there. A zero extent would give an IEEE infinity or NaN, which reals cannot represent.
- `Scrollbar.RenderSmoothScrollbar`: takes a window, not a possibly-null pointer. main.cpp:104 dereferences `window` without a null check.
- `Settling.OverscrollReturnsToZero`: follows the overscroll field alone (`Settling.Relaxed`), over frames in which no new boundary hit records a fresh overscroll. A hit during those frames starts the count again.
- `Settling.Coast`: the frames keep the window's scroll range fixed and assume the host writes nothing to the scroll between frames.

=== FILE: easing.dfy ===
/**
 * The shared exponential easing step `EaseOut` (main.cpp, lines 32-34):
 * `current + (target - current) * (1 - exp(-speed * dt))`.
 *
 * Only one transcendental value is needed per frame: `exp(-dt)`. Every speed
 * the program passes (8, 12 and 15) is a whole number, so
 * `exp(-speed * dt) == exp(-dt)^speed` exactly, and a frame carries its
 * elapsed time together with `exp(-dt)`.
 */
module Easing {
  import opened ImMath

  /** A frame's elapsed time `dt` and `decay == exp(-dt)`. */
  datatype FrameTime = FrameTime(dt: real, decay: real)
  {
    /**
     * What `exp` guarantees for a non-negative argument: the value is
     * positive, at most 1, and equal to 1 exactly when the argument is 0.
     */
    predicate Valid()
    {
      && dt >= 0.0
      && 0.0 < decay <= 1.0
      && (decay == 1.0 <==> dt == 0.0)
    }
  }

  /** The fraction of the gap an easing step at `speed` closes in one frame. */
  function Factor(speed: nat, t: FrameTime): (k: real)
    requires t.Valid()
    ensures 0.0 <= k < 1.0
    ensures k == 0.0 <==> t.dt == 0.0 || speed == 0
  {
    1.0 - Pow(t.decay, speed)
  }

  /**
   * One easing step from `current` toward `target`. The result lies between
   * the two, never overshoots the target, is the identity when no time
   * passed or the target is already reached, and strictly closes the gap
   * otherwise.
   */
  function EaseOut(current: real, target: real, speed: nat, t: FrameTime): (r: real)
    requires t.Valid()
    ensures Min(current, target) <= r <= Max(current, target)
    ensures Abs(target - r) <= Abs(target - current)
    ensures t.dt == 0.0 || current == target ==> r == current
    ensures t.dt > 0.0 && speed > 0 && current != target ==>
              r != current && Abs(target - r) < Abs(target - current)
  {
    var k := Factor(speed, t);
    PartialStep(current, target, k);
    current + (target - current) * k
  }

  /** Closing a fraction `k` in [0, 1) of a gap lands between its ends. */
  lemma PartialStep(current: real, target: real, k: real)
    requires 0.0 <= k < 1.0
    ensures var r := current + (target - current) * k;
      && Min(current, target) <= r <= Max(current, target)
      && Abs(target - r) <= Abs(target - current)
      && (k > 0.0 && current != target ==> r != current && Abs(target - r) < Abs(target - current))
  {
    var d := target - current;
    var r := current + d * k;
    assert target - r == d * (1.0 - k);
    ScaleWithin(d, k);
    ScaleWithin(d, 1.0 - k);
    if k > 0.0 && d != 0.0 {
      assert d * k != 0.0;
      if d > 0.0 {
        assert d * (1.0 - k) == d - d * k;
      }
    }
  }

  /** Scaling by a factor in [0, 1] moves a number toward zero. */
  lemma ScaleWithin(d: real, k: real)
    requires 0.0 <= k <= 1.0
    ensures 0.0 <= d ==> 0.0 <= d * k <= d
    ensures d < 0.0 ==> d <= d * k <= 0.0
  {
    if 0.0 <= d {
      MulMonotone(0.0, k, d);
      MulMonotone(k, 1.0, d);
    } else {
      MulMonotone(0.0, k, -d);
      MulMonotone(k, 1.0, -d);
    }
  }

  /** Easing toward zero keeps exactly the fraction `exp(-speed*dt)`. */
  lemma EaseToZero(v: real, speed: nat, t: FrameTime)
    requires t.Valid()
    ensures EaseOut(v, 0.0, speed, t) == v * Pow(t.decay, speed)
    ensures Abs(EaseOut(v, 0.0, speed, t)) == Abs(v) * Pow(t.decay, speed)
  {
    var p := Pow(t.decay, speed);
    assert EaseOut(v, 0.0, speed, t) == v * p;
    if v < 0.0 {
      assert Abs(v * p) == -(v * p) == (-v) * p;
    }
  }
}

=== FILE: immath.dfy ===
/**
 * Scalar helpers the smooth-scroll code borrows from Dear ImGui (`ImClamp`,
 * `ImSaturate`, `ImMax`, `ImMin`) and from the C library (`std::abs`), over
 * real numbers, plus the 2-D vector and rectangle records and a natural power
 * used to express `std::exp` at integer multiples of one exponent.
 *
 * imgui_internal.h is not part of this model; the helpers follow its usual
 * definitions, including which operand wins on ties.
 */
module ImMath {

  /** `std::abs` on a float. */
  function Abs(x: real): (r: real)
    ensures r >= 0.0
    ensures r == x || r == -x
  {
    if x < 0.0 then -x else x
  }

  /** `ImMax(lhs, rhs)`: the left operand wins ties. */
  function Max(a: real, b: real): (r: real)
    ensures r >= a && r >= b
    ensures r == a || r == b
  {
    if a >= b then a else b
  }

  /** `ImMin(lhs, rhs)`: the right operand wins ties. */
  function Min(a: real, b: real): (r: real)
    ensures r <= a && r <= b
    ensures r == a || r == b
  {
    if a < b then a else b
  }

  /**
   * `ImClamp(v, mn, mx)`: the lower bound is tested first, so an empty
   * interval (`mn > mx`) yields `mn` for values below it and `mx` otherwise.
   */
  function Clamp(v: real, lo: real, hi: real): (r: real)
    ensures lo <= hi ==> lo <= r <= hi
    ensures lo <= v <= hi ==> r == v
    ensures v < lo ==> r == lo
    ensures lo <= v && hi < v ==> r == hi
  {
    if v < lo then lo else if v > hi then hi else v
  }

  /** `ImSaturate(f)`: clamp to the unit interval. */
  function Saturate(f: real): (r: real)
    ensures 0.0 <= r <= 1.0
    ensures 0.0 <= f <= 1.0 ==> r == f
    ensures f < 0.0 ==> r == 0.0
    ensures 1.0 < f ==> r == 1.0
  {
    if f < 0.0 then 0.0 else if f > 1.0 then 1.0 else f
  }

  datatype Vec2 = Vec2(x: real, y: real)

  /** `ImRect`: an upper-left and a lower-right corner. */
  datatype Rect = Rect(min: Vec2, max: Vec2)
  {
    /** `ImRect::GetHeight`. */
    function Height(): real
    {
      max.y - min.y
    }
  }

  /**
   * `b` raised to a natural power. For `b` in (0, 1] (the range of
   * `exp(-dt)` for `dt >= 0`) the power stays in (0, 1], is exactly 1 when
   * `b` is, and drops below 1 as soon as `b` does and the exponent is positive.
   */
  function Pow(b: real, n: nat): (r: real)
    ensures 0.0 < b <= 1.0 ==> 0.0 < r <= 1.0
    ensures b == 1.0 ==> r == 1.0
    ensures 0.0 < b < 1.0 && n > 0 ==> r < 1.0
    decreases n
  {
    if n == 0 then 1.0
    else
      var p := Pow(b, n - 1);
      assert 0.0 < b <= 1.0 ==> 0.0 < b * p <= p by {
        if 0.0 < b <= 1.0 {
          MulMonotone(b, 1.0, p);
        }
      }
      b * p
  }

  /** Multiplying by a non-negative factor keeps an inequality. */
  lemma MulMonotone(a: real, b: real, c: real)
    requires a <= b && 0.0 <= c
    ensures a * c <= b * c
  {
    assert b * c - a * c == (b - a) * c;
  }

  /** Multiplying by a positive factor keeps a strict inequality. */
  lemma MulStrict(a: real, b: real, c: real)
    requires a < b && 0.0 < c
    ensures a * c < b * c
  {
    assert b * c - a * c == (b - a) * c;
  }

  /**
   * Bernoulli's inequality in the form `b^n * (1 + n*(1 - b)) <= 1`: a
   * retention factor below 1 shrinks a quantity at least harmonically in
   * the number of applications.
   */
  lemma {:induction false} Bernoulli(b: real, n: nat)
    requires 0.0 < b <= 1.0
    ensures Pow(b, n) * (1.0 + n as real * (1.0 - b)) <= 1.0
    decreases n
  {
    if n > 0 {
      var m := n - 1;
      Bernoulli(b, m);
      var p := Pow(b, m);
      var g := 1.0 + m as real * (1.0 - b);
      assert Pow(b, n) == b * p;
      assert 1.0 + n as real * (1.0 - b) == g + (1.0 - b);
      calc {
        Pow(b, n) * (1.0 + n as real * (1.0 - b));
        b * p * g + b * p * (1.0 - b);
      <= { MulMonotone(p * g, 1.0, b); }
        b + b * p * (1.0 - b);
      <= { MulMonotone(b * p, 1.0, 1.0 - b); }
        b + (1.0 - b);
      }
    }
  }

  /** For a base in (0, 1] one more factor never makes the power larger. */
  lemma PowStep(b: real, n: nat)
    requires 0.0 < b <= 1.0 && n > 0
    ensures Pow(b, n) <= Pow(b, n - 1)
  {
    var p := Pow(b, n - 1);
    MulMonotone(b, 1.0, p);
    assert Pow(b, n) == b * p;
  }

  /** For a base in (0, 1] a larger exponent never gives a larger power. */
  lemma {:induction false} PowAntitone(b: real, m: nat, n: nat)
    requires 0.0 < b <= 1.0 && m <= n
    ensures Pow(b, n) <= Pow(b, m)
    decreases n - m
  {
    if m < n {
      PowAntitone(b, m, n - 1);
      PowStep(b, n);
    }
  }
}

=== FILE: scroll_properties.dfy ===
/**
 * Properties of whole frames of `ApplySmoothScroll` (main.cpp, lines 37-96):
 * the range of the scroll written back, what a zero-length frame does, what pushing
 * past the top does, and what happens when the scroll range shrinks.
 */
module ScrollProperties {
  import opened ImMath
  import opened Easing
  import opened SmoothScroll

  /**
   * The scroll written back to the window lies in `[0, ScrollMax.y]` and is
   * the window's new visible position, whenever the stored state (or the
   * all-zero state of a window seen for the first time) was consistent.
   */
  lemma WrittenScrollInRange(states: Store, w: Window, wheelDelta: real, t: FrameTime)
    requires w.scrollMax > 0.0 && t.Valid()
    requires Consistent(StateOf(states, w.id), w)
    ensures var r := ApplySmoothScroll(states, Some(w), wheelDelta, t);
      && r.window.Some?
      && 0.0 <= r.window.value.scroll <= w.scrollMax
      && Consistent(r.states[w.id], r.window.value)
  {
  }

  /**
   * A frame in which no time passes and the wheel is still leaves a
   * consistent, displayed state unchanged exactly when neither snap fires:
   * the velocity is not strictly between 0.1 and 0.5 and the overscroll is
   * zero or larger than 0.1. Otherwise the snaps still zero those fields.
   */
  lemma ZeroTimeStep(s: SmoothScrollState, w: Window, t: FrameTime)
    requires w.scrollMax > 0.0 && t.Valid() && t.dt == 0.0
    requires Consistent(s, w) && w.scroll == s.currentScroll
    ensures Step(s, w, 0.0, t) == s <==>
              && (Abs(s.velocity) <= MovingSpeed || Abs(s.velocity) >= RestSpeed)
              && (s.overscroll == 0.0 || Abs(s.overscroll) > OverscrollRest)
  {
  }

  /**
   * Pushing the wheel toward the top while resting at the top never moves
   * the target or the visible position. A push too faint to reach the 0.1
   * moving threshold is kept as an idle velocity; up to one notch
   * (`wheel <= 1`, a velocity of at most 50) is a slow hit that leaves no
   * velocity and no overscroll; more is a fast hit that reverses the
   * velocity and records a negative overscroll of at most 60.
   */
  lemma PushPastTop(s: SmoothScrollState, w: Window, wheelDelta: real, t: FrameTime)
    requires w.scrollMax > 0.0 && t.Valid() && t.dt > 0.0
    requires s.velocity == 0.0 && s.overscroll == 0.0
    requires s.targetScroll == 0.0 && s.currentScroll == 0.0 && w.scroll == 0.0
    requires wheelDelta > 0.0
    ensures var r := Step(s, w, wheelDelta, t);
      && r.targetScroll == 0.0 && r.currentScroll == 0.0
      && (wheelDelta * ScrollMultiplier <= MovingSpeed ==>
            r.velocity == wheelDelta * ScrollMultiplier && r.overscroll == 0.0)
      && (wheelDelta * ScrollMultiplier > MovingSpeed && wheelDelta <= 1.0 ==>
            r.velocity == 0.0 && r.overscroll == 0.0)
      && (wheelDelta > 1.0 ==> r.velocity <= 0.0 && -MaxOverscroll <= r.overscroll <= 0.0)
  {
  }

  /**
   * When the range shrinks below a resting target (content got shorter),
   * nothing re-clamps the target: a velocity of at most 0.1 skips the bounds
   * check, so the visible position stays where it was and the scroll written
   * back lies beyond the new `ScrollMax.y`.
   */
  lemma ShrunkRangeNotReclamped(s: SmoothScrollState, w: Window, t: FrameTime)
    requires w.scrollMax > 0.0 && t.Valid()
    requires Abs(s.velocity) <= MovingSpeed
    requires s.targetScroll > w.scrollMax && s.currentScroll == s.targetScroll
    ensures var r := ApplySmoothScroll(map[w.id := s], Some(w), 0.0, t);
      r.window.Some? && r.window.value.scroll == s.targetScroll > w.scrollMax
  {
  }
}

=== FILE: scrollbar.dfy ===
/**
 * The custom scrollbar `RenderSmoothScrollbar` (main.cpp, lines 99-160): the
 * track rectangle along the window's right edge, the grab's size and target
 * position, the eased grab offset and fade-in alpha kept in the window's
 * `SmoothScrollState`, the grab rectangle clamped to the track, and the two
 * filled rectangles it draws.
 */
module Scrollbar {
  import opened ImMath
  import opened Easing
  import opened SmoothScroll

  // Literals of the renderer (lines 110, 124, 132, 136-137, 152-153, 159).
  const Padding: real := 2.0
  const MinGrabFraction: real := 0.05
  const OverscrollShift: real := 0.2
  const GrabSpeed: nat := 15
  const FadeSpeed: nat := 8
  const TrackAlpha: real := 0.4
  const HoveredAlpha: real := 1.0
  const IdleAlpha: real := 0.6
  const GrabRounding: real := 3.0

  /** The style values read: `ScrollbarSize`, `WindowPadding.y`, `GrabMinSize`, `ScrollbarRounding`. */
  datatype Style = Style(scrollbarSize: real, windowPaddingY: real, grabMinSize: real, scrollbarRounding: real)

  /**
   * The window geometry read: `Pos`, `Size`, `TitleBarHeight()`,
   * `InnerRect.GetHeight()` and `ContentSize.y`.
   */
  datatype Layout = Layout(pos: Vec2, size: Vec2, titleBarHeight: real, innerHeight: real, contentHeight: real)

  /** The colour slots drawn with. */
  datatype ColorSlot = ScrollbarBg | ScrollbarGrab

  /** `AddRectFilled(min, max, GetColorU32(slot, alphaMul), rounding)`. */
  datatype DrawCmd = FillRect(rect: Rect, slot: ColorSlot, alphaMul: real, rounding: real)

  /** The effect of one call: the state map afterwards and the draw commands emitted. */
  datatype Rendered = Rendered(states: Store, draws: seq<DrawCmd>)

  /** The sizes computed from the geometry before any animation. */
  datatype Geometry = Geometry(track: Rect, grabNorm: real, grabPixels: real, grabTarget: real)

  /** Lines 111-116: a band `ScrollbarSize` wide at the right edge, from below the title bar to the bottom. */
  function TrackRect(layout: Layout, style: Style): (bb: Rect)
    ensures bb.max.x - bb.min.x == style.scrollbarSize
    ensures bb.max.x == layout.pos.x + layout.size.x
    ensures bb.min.y == layout.pos.y + layout.titleBarHeight
    ensures bb.max.y == layout.pos.y + layout.size.y
  {
    Rect(Vec2(layout.pos.x + layout.size.x - style.scrollbarSize, layout.pos.y + layout.titleBarHeight),
         Vec2(layout.pos.x + layout.size.x, layout.pos.y + layout.size.y))
  }

  /** Line 123: the content height the grab is proportioned against. */
  function ContentExtent(layout: Layout, style: Style): real
  {
    layout.contentHeight + style.windowPaddingY * 2.0
  }

  /**
   * Lines 124-125: the grab covers the visible fraction of the content,
   * between 5% and all of the track, and never less than `GrabMinSize`
   * pixels. When the visible fraction is itself in [0.05, 1] it is used
   * unchanged.
   */
  function GrabNorm(winSize: real, contentSize: real): (norm: real)
    requires contentSize > 0.0
    ensures MinGrabFraction <= norm <= 1.0
    ensures MinGrabFraction <= winSize / contentSize <= 1.0 ==> norm == winSize / contentSize
    ensures winSize / contentSize < MinGrabFraction ==> norm == MinGrabFraction
    ensures winSize / contentSize > 1.0 ==> norm == 1.0
  {
    Clamp(winSize / contentSize, MinGrabFraction, 1.0)
  }

  /** Line 125: the grab length in pixels, floored at `GrabMinSize`. */
  function GrabPixels(height: real, norm: real, grabMinSize: real): (px: real)
    ensures px >= grabMinSize && px >= height * norm
    ensures px == grabMinSize || px == height * norm
  {
    Max(height * norm, grabMinSize)
  }

  /**
   * Lines 128-133: the grab's target offset within the track. It is the
   * scroll ratio (saturated to [0, 1]) of the free track length, shifted by
   * a fifth of the overscroll against its sign and clamped back into the
   * free length. With no overscroll and an in-range scroll it is exactly
   * proportional to the scroll; at the top it is 0 unless a negative
   * (top) overscroll pushes it down, at the bottom it is the free length
   * unless a positive (bottom) overscroll pulls it up.
   */
  function GrabTarget(scroll: real, scrollMax: real, overscroll: real, height: real, grabPixels: real): (p: real)
    requires scrollMax > 0.0
    ensures height >= grabPixels ==> 0.0 <= p <= height - grabPixels
    ensures height >= grabPixels && overscroll == 0.0 && 0.0 <= scroll <= scrollMax ==>
              p == scroll / scrollMax * (height - grabPixels)
    ensures height >= grabPixels && scroll <= 0.0 && overscroll >= 0.0 ==> p == 0.0
    ensures height >= grabPixels && scroll >= scrollMax && overscroll <= 0.0 ==> p == height - grabPixels
    ensures height >= grabPixels && scroll <= 0.0 && overscroll < 0.0 ==>
              p == Min(-(overscroll * OverscrollShift), height - grabPixels) && (height > grabPixels ==> p > 0.0)
    ensures height >= grabPixels && scroll >= scrollMax && overscroll > 0.0 ==>
              p == Max(height - grabPixels - overscroll * OverscrollShift, 0.0) && (height > grabPixels ==> p < height - grabPixels)
  {
    var free := height - grabPixels;
    var ratio := Saturate(scroll / scrollMax);
    ScrollRatio(scroll, scrollMax);
    RatioOfFree(ratio, free);
    Clamp(ratio * free - overscroll * OverscrollShift, 0.0, free)
  }

  /** Where the scroll sits relative to the range decides which side of [0, 1] its ratio falls on. */
  lemma ScrollRatio(scroll: real, scrollMax: real)
    requires scrollMax > 0.0
    ensures scroll <= 0.0 <==> scroll / scrollMax <= 0.0
    ensures scroll >= scrollMax <==> scroll / scrollMax >= 1.0
  {
    var q := scroll / scrollMax;
    assert q * scrollMax == scroll;
    if q < 0.0 {
      MulStrict(q, 0.0, scrollMax);
    } else if q > 0.0 {
      MulStrict(0.0, q, scrollMax);
    }
    if q < 1.0 {
      MulStrict(q, 1.0, scrollMax);
      assert scroll < scrollMax;
    } else if q > 1.0 {
      MulStrict(1.0, q, scrollMax);
      assert scroll > scrollMax;
    }
  }

  /** A ratio in [0, 1] of a non-negative length stays within it. */
  lemma RatioOfFree(ratio: real, free: real)
    requires 0.0 <= ratio <= 1.0
    ensures free >= 0.0 ==> 0.0 <= ratio * free <= free
    ensures ratio == 0.0 ==> ratio * free == 0.0
    ensures ratio == 1.0 ==> ratio * free == free
  {
    if free >= 0.0 {
      MulMonotone(0.0, ratio, free);
      MulMonotone(ratio, 1.0, free);
    }
  }

  /** Lines 111-133: the geometry of a window that can scroll and has room for a track. */
  function ComputeGeometry(w: Window, layout: Layout, style: Style, overscroll: real): (g: Geometry)
    requires w.scrollMax > 0.0 && ContentExtent(layout, style) > 0.0
    ensures g.track == TrackRect(layout, style)
    ensures MinGrabFraction <= g.grabNorm <= 1.0
    ensures g.grabPixels >= style.grabMinSize
    ensures g.track.Height() >= g.grabPixels ==> 0.0 <= g.grabTarget <= g.track.Height() - g.grabPixels
  {
    var bb := TrackRect(layout, style);
    var norm := GrabNorm(layout.innerHeight, ContentExtent(layout, style));
    var px := GrabPixels(bb.Height(), norm, style.grabMinSize);
    Geometry(bb, norm, px, GrabTarget(w.scroll, w.scrollMax, overscroll, bb.Height(), px))
  }

  /**
   * Lines 140-148: the grab rectangle, inset horizontally by the padding and
   * clamped vertically to the track. An offset that keeps the whole grab in
   * the track is not clamped at all.
   */
  function GrabRect(track: Rect, grabAnim: real, grabPixels: real): (r: Rect)
    ensures track.min.y <= r.min.y && r.max.y <= track.max.y
    ensures r.min.x == track.min.x + Padding && r.max.x == track.max.x - Padding
    ensures 0.0 <= grabAnim && grabAnim + grabPixels <= track.Height() ==>
              r.min.y == track.min.y + grabAnim && r.Height() == grabPixels
  {
    var top := track.min.y + grabAnim;
    Rect(Vec2(track.min.x + Padding, Max(top, track.min.y)),
         Vec2(track.max.x - Padding, Min(top + grabPixels, track.max.y)))
  }

  /** Line 152: the grab is fully opaque under the mouse and at 60% otherwise. */
  function HoverAlpha(hovered: bool): (a: real)
    ensures hovered ==> a == HoveredAlpha
    ensures !hovered ==> a == IdleAlpha
    ensures 0.0 < a <= 1.0
  {
    if hovered then HoveredAlpha else IdleAlpha
  }

  /**
   * Lines 99-160. A window that cannot scroll is left alone: no entry is
   * created and nothing is drawn. Otherwise the window's entry is created
   * if absent; with no room for a track nothing else happens. With room,
   * only the entry's grab offset and alpha change (the offset eases toward
   * the grab target, the alpha toward 1), and two rectangles are drawn: the
   * track at 40% of the alpha, then the grab, inside the track, at the
   * alpha times the hover multiplier.
   */
  function RenderSmoothScrollbar(states: Store, w: Window, layout: Layout, style: Style, hovered: bool, t: FrameTime): (r: Rendered)
    requires t.Valid()
    requires w.scrollMax > 0.0 && TrackRect(layout, style).Height() > 0.0 ==> ContentExtent(layout, style) > 0.0
    ensures w.scrollMax <= 0.0 ==> r == Rendered(states, [])
    ensures w.scrollMax > 0.0 ==>
              && w.id in r.states
              && r.states == states[w.id := r.states[w.id]]
    ensures w.scrollMax > 0.0 && TrackRect(layout, style).Height() <= 0.0 ==>
              r.draws == [] && r.states[w.id] == StateOf(states, w.id)
    ensures w.scrollMax > 0.0 && TrackRect(layout, style).Height() > 0.0 ==>
              var before := StateOf(states, w.id);
              var after := r.states[w.id];
              var bb := TrackRect(layout, style);
              var g := ComputeGeometry(w, layout, style, before.overscroll);
              && after == before.(grabAnim := after.grabAnim, alpha := after.alpha)
              && Min(before.grabAnim, g.grabTarget) <= after.grabAnim <= Max(before.grabAnim, g.grabTarget)
              && Min(before.alpha, 1.0) <= after.alpha <= Max(before.alpha, 1.0)
              && |r.draws| == 2
              && r.draws[0] == FillRect(bb, ScrollbarBg, after.alpha * TrackAlpha, style.scrollbarRounding)
              && r.draws[1].slot == ScrollbarGrab
              && r.draws[1].rounding == GrabRounding
              && r.draws[1].alphaMul == after.alpha * HoverAlpha(hovered)
              && bb.min.y <= r.draws[1].rect.min.y
              && r.draws[1].rect.max.y <= bb.max.y
  {
    if w.scrollMax <= 0.0 then Rendered(states, [])
    else
      var s := StateOf(states, w.id);
      var bb := TrackRect(layout, style);
      if bb.Height() <= 0.0 then Rendered(states[w.id := s], [])
      else
        var g := ComputeGeometry(w, layout, style, s.overscroll);
        var s' := s.(grabAnim := EaseOut(s.grabAnim, g.grabTarget, GrabSpeed, t),
                     alpha := EaseOut(s.alpha, 1.0, FadeSpeed, t));
        var grab := GrabRect(bb, s'.grabAnim, g.grabPixels);
        Rendered(states[w.id := s'],
                 [FillRect(bb, ScrollbarBg, s'.alpha * TrackAlpha, style.scrollbarRounding),
                  FillRect(grab, ScrollbarGrab, s'.alpha * HoverAlpha(hovered), GrabRounding)])
  }

  /**
   * Lines 135-137, per frame: the grab offset moves toward the grab target
   * and the alpha toward 1 at the exponential rates 15 and 8, each strictly
   * closing its gap once time passes.
   */
  lemma RenderAnimationSteps(states: Store, w: Window, layout: Layout, style: Style, hovered: bool, t: FrameTime)
    requires t.Valid() && w.scrollMax > 0.0
    requires TrackRect(layout, style).Height() > 0.0 && ContentExtent(layout, style) > 0.0
    ensures var r := RenderSmoothScrollbar(states, w, layout, style, hovered, t);
      var before := StateOf(states, w.id);
      var after := r.states[w.id];
      var g := ComputeGeometry(w, layout, style, before.overscroll);
      && after.grabAnim == EaseOut(before.grabAnim, g.grabTarget, GrabSpeed, t)
      && after.alpha == EaseOut(before.alpha, 1.0, FadeSpeed, t)
      && (t.dt > 0.0 && before.grabAnim != g.grabTarget ==>
            Abs(g.grabTarget - after.grabAnim) < Abs(g.grabTarget - before.grabAnim))
      && (t.dt > 0.0 && before.alpha != 1.0 ==>
            Abs(1.0 - after.alpha) < Abs(1.0 - before.alpha))
  {
  }

  /**
   * Lines 139-157: the grab drawn second is exactly `GrabRect` at the new
   * grab offset and the grab length: inset by the padding on both sides and
   * clamped vertically into the track, in the grab colour at the alpha times
   * the hover multiplier.
   */
  lemma RenderDrawsGrab(states: Store, w: Window, layout: Layout, style: Style, hovered: bool, t: FrameTime)
    requires t.Valid() && w.scrollMax > 0.0
    requires TrackRect(layout, style).Height() > 0.0 && ContentExtent(layout, style) > 0.0
    ensures var r := RenderSmoothScrollbar(states, w, layout, style, hovered, t);
      var after := r.states[w.id];
      var g := ComputeGeometry(w, layout, style, StateOf(states, w.id).overscroll);
      && |r.draws| == 2
      && r.draws[1] == FillRect(GrabRect(TrackRect(layout, style), after.grabAnim, g.grabPixels),
                                ScrollbarGrab, after.alpha * HoverAlpha(hovered), GrabRounding)
  {
  }

  /**
   * The animation keeps the scrollbar well-formed from frame to frame: an
   * alpha in [0, 1] stays there and never decreases (the fade only goes
   * in), and when the grab fits the track a grab offset within the free
   * track length stays within it, so the drawn grab is exactly
   * `GrabMinSize`-or-more pixels long, at that offset, and never clamped.
   */
  lemma AnimationStaysInTrack(states: Store, w: Window, layout: Layout, style: Style, hovered: bool, t: FrameTime)
    requires t.Valid() && w.scrollMax > 0.0
    requires TrackRect(layout, style).Height() > 0.0 && ContentExtent(layout, style) > 0.0
    requires var before := StateOf(states, w.id);
      var g := ComputeGeometry(w, layout, style, before.overscroll);
      && 0.0 <= before.alpha <= 1.0
      && g.grabPixels <= g.track.Height()
      && 0.0 <= before.grabAnim <= g.track.Height() - g.grabPixels
    ensures var r := RenderSmoothScrollbar(states, w, layout, style, hovered, t);
      var before := StateOf(states, w.id);
      var after := r.states[w.id];
      var g := ComputeGeometry(w, layout, style, before.overscroll);
      var bb := TrackRect(layout, style);
      && before.alpha <= after.alpha <= 1.0
      && 0.0 <= after.grabAnim <= bb.Height() - g.grabPixels
      && r.draws[1].rect.min.y == bb.min.y + after.grabAnim
      && r.draws[1].rect.Height() == g.grabPixels
  {
  }

  /**
   * A viewport of 300 pixels over 1500 pixels of content (no padding) on a
   * 600-pixel track gives a grab of a fifth of the track, 120 pixels, when
   * `GrabMinSize` is at most that.
   */
  lemma FifthOfContentGrab(grabMinSize: real)
    requires grabMinSize <= 120.0
    ensures GrabNorm(300.0, 1500.0) == 0.2
    ensures GrabPixels(600.0, GrabNorm(300.0, 1500.0), grabMinSize) == 120.0
  {
  }
}

=== FILE: settling.dfy ===
/**
 * Momentum over many frames without wheel input (main.cpp, lines 56-82,
 * applied once per frame by the main loop at line 279): a velocity fast
 * enough to move shrinks by at least `exp(-8*dt)` per frame and is snapped
 * to exactly zero after a number of frames bounded by its initial speed and
 * the frame time. A velocity too slow to move is never touched. Likewise
 * the bounce overscroll (lines 84-90) keeps exactly the fraction
 * `exp(-12*dt)` per frame while above 0.1 and returns to exactly zero after
 * a bounded number of frames.
 */
module Settling {
  import opened ImMath
  import opened Easing
  import opened SmoothScroll

  /** `n` further frames without wheel input, the window following the written scroll. */
  function Coast(s: SmoothScrollState, w: Window, t: FrameTime, n: nat): SmoothScrollState
    requires w.scrollMax > 0.0 && t.Valid()
    decreases n
  {
    if n == 0 then s
    else
      var next := Step(s, w, 0.0, t);
      Coast(next, w.(scroll := next.currentScroll), t, n - 1)
  }

  /** The per-frame velocity retention `exp(-8*dt)`. */
  function Retention(t: FrameTime): (r: real)
    requires t.Valid()
    ensures 0.0 < r <= 1.0
    ensures t.dt > 0.0 ==> r < 1.0
  {
    Pow(t.decay, ScrollSmoothing)
  }

  /** The largest speed left of `speed` after `n` frames of braking (`Retained` is one frame). */
  function Envelope(speed: real, t: FrameTime, n: nat): real
    requires t.Valid()
  {
    speed * Pow(Retention(t), n)
  }

  /** One frame of braking leaves at most the one-frame envelope. */
  lemma RetainedIsEnvelope(v: real, t: FrameTime)
    requires t.Valid()
    ensures Retained(v, t) == Envelope(Abs(v), t, 1)
  {
    assert Pow(Retention(t), 1) == Retention(t);
  }

  /** Envelopes compose: one frame followed by `n - 1` frames is `n` frames. */
  lemma EnvelopeChain(a: real, b: real, t: FrameTime, n: nat)
    requires t.Valid() && n >= 1 && 0.0 <= a
    ensures a <= Envelope(b, t, 1) ==> Envelope(a, t, n - 1) <= Envelope(b, t, n)
  {
    if a > Envelope(b, t, 1) {
      return;
    }
    var R := Retention(t);
    var P := Pow(R, n - 1);
    assert Pow(R, 1) == R;
    assert Pow(R, n) == R * P;
    MulMonotone(a, b * R, P);
    assert (b * R) * P == b * (R * P);
  }

  /**
   * One frame without input: a velocity of at most 0.1 is kept as it is;
   * a faster one ends at rest or at a speed of at least 0.5, within the
   * one-frame envelope of its old speed.
   */
  lemma StepWithoutInput(s: SmoothScrollState, w: Window, t: FrameTime)
    requires w.scrollMax > 0.0 && t.Valid()
    ensures var v := Step(s, w, 0.0, t).velocity;
      && (Abs(s.velocity) <= MovingSpeed ==> v == s.velocity)
      && (Abs(s.velocity) > MovingSpeed ==>
            v == 0.0 || (RestSpeed <= Abs(v) && Abs(v) <= Envelope(Abs(s.velocity), t, 1)))
  {
    var a := Adopt(s, w.scroll);
    var b := AddImpulse(a, 0.0);
    assert b.velocity == s.velocity;
    var c := Integrate(b, w.scrollMax, t);
    assert Step(s, w, 0.0, t).velocity == c.velocity;
    RetainedIsEnvelope(s.velocity, t);
  }

  /** A velocity of at most 0.1 survives any number of frames without input. */
  lemma {:induction false} IdleVelocityIsInert(s: SmoothScrollState, w: Window, t: FrameTime, n: nat)
    requires w.scrollMax > 0.0 && t.Valid()
    requires Abs(s.velocity) <= MovingSpeed
    ensures Coast(s, w, t, n).velocity == s.velocity
    decreases n
  {
    if n > 0 {
      var next := Step(s, w, 0.0, t);
      StepWithoutInput(s, w, t);
      IdleVelocityIsInert(next, w.(scroll := next.currentScroll), t, n - 1);
    }
  }

  /**
   * After `n >= 1` frames without input a velocity that was moving is at
   * rest, or at least 0.5 and within the `n`-frame envelope of its initial
   * speed.
   */
  lemma {:induction false} CoastSlows(s: SmoothScrollState, w: Window, t: FrameTime, n: nat)
    requires w.scrollMax > 0.0 && t.Valid()
    requires Abs(s.velocity) > MovingSpeed && n >= 1
    ensures var v := Coast(s, w, t, n).velocity;
      v == 0.0 || (RestSpeed <= Abs(v) && Abs(v) <= Envelope(Abs(s.velocity), t, n))
    decreases n
  {
    var next := Step(s, w, 0.0, t);
    var w' := w.(scroll := next.currentScroll);
    StepWithoutInput(s, w, t);
    if n > 1 {
      if next.velocity == 0.0 {
        IdleVelocityIsInert(next, w', t, n - 1);
      } else {
        CoastSlows(next, w', t, n - 1);
        EnvelopeChain(Abs(next.velocity), Abs(s.velocity), t, n);
      }
    }
  }

  /**
   * A number of frames after which a velocity of the given speed has
   * certainly come to rest: more than `2 * speed / (1 - exp(-8*dt))`.
   */
  function RestFrames(speed: real, t: FrameTime): (n: nat)
    requires t.Valid() && t.dt > 0.0 && speed >= 0.0
    ensures n >= 1
    ensures n as real * (1.0 - Retention(t)) > 2.0 * speed
  {
    FramesToShrink(2.0 * speed, Retention(t))
  }

  /**
   * The least whole number of frames `n` with `n * (1 - R) > y`, for a
   * per-frame retention `R` in (0, 1).
   */
  function FramesToShrink(y: real, R: real): (n: nat)
    requires 0.0 < R < 1.0 && y >= 0.0
    ensures n >= 1
    ensures n as real * (1.0 - R) > y
    ensures n as real <= y / (1.0 - R) + 1.0
  {
    var d := 1.0 - R;
    var x := y / d;
    FloorStep(x, d, y);
    x.Floor + 1
  }

  /** The next integer above `y / d`, times `d`, exceeds `y`. */
  lemma FloorStep(x: real, d: real, y: real)
    requires d > 0.0 && y >= 0.0 && x == y / d
    ensures x.Floor + 1 >= 1
    ensures (x.Floor + 1) as real * d > y
  {
    assert x * d == y;
    var n := x.Floor + 1;
    assert n as real > x;
    MulStrict(x, n as real, d);
  }

  /**
   * From `RestFrames` frames on, the envelope of a speed is below the 0.5
   * rest threshold (Bernoulli's inequality bounds the geometric decay).
   */
  lemma EnvelopeBelowRest(speed: real, t: FrameTime, extra: nat)
    requires t.Valid() && t.dt > 0.0 && speed >= 0.0
    ensures Envelope(speed, t, RestFrames(speed, t) + extra) < RestSpeed
  {
    var N := RestFrames(speed, t);
    var n := N + extra;
    var R := Retention(t);
    PowAntitone(R, N, n);
    Bernoulli(R, N);
    HarmonicBound(speed, Pow(R, N), 1.0 + N as real * (1.0 - R));
    ScaledBelow(speed, Pow(R, n), Pow(R, N), RestSpeed);
  }

  /** A smaller factor keeps a non-negative scale below a bound. */
  lemma ScaledBelow(c: real, a: real, b: real, h: real)
    requires 0.0 <= c && a <= b && c * b < h
    ensures c * a < h
  {
    MulMonotone(a, b, c);
    var x := a * c;
    var y := b * c;
    assert x <= y;
  }

  /** If `X * B <= 1` and `B > 1 + 2 * speed` then `speed * X < 1/2`. */
  lemma HarmonicBound(speed: real, X: real, B: real)
    requires speed >= 0.0 && X > 0.0 && X * B <= 1.0 && B > 1.0 + 2.0 * speed
    ensures speed * X < 0.5
  {
    MulStrict(1.0 + 2.0 * speed, B, X);
    assert B * X == X * B;
    assert (1.0 + 2.0 * speed) * X == X + 2.0 * (speed * X);
    assert X + 2.0 * (speed * X) < 1.0;
  }

  /**
   * With a positive frame time and no wheel input, a moving velocity comes
   * to rest, exactly zero, within `RestFrames` frames and stays there for
   * any number of `extra` frames.
   */
  lemma VelocityComesToRest(s: SmoothScrollState, w: Window, t: FrameTime, extra: nat)
    requires w.scrollMax > 0.0 && t.Valid() && t.dt > 0.0
    requires Abs(s.velocity) > MovingSpeed
    ensures Coast(s, w, t, RestFrames(Abs(s.velocity), t) + extra).velocity == 0.0
  {
    var n := RestFrames(Abs(s.velocity), t) + extra;
    CoastSlows(s, w, t, n);
    EnvelopeBelowRest(Abs(s.velocity), t, extra);
  }

  /**
   * `n` frames of overscroll relaxation (lines 84-90) applied to `o`, in
   * frames where no new boundary hit records a fresh overscroll.
   */
  function Relaxed(o: real, t: FrameTime, n: nat): real
    requires t.Valid()
    decreases n
  {
    if n == 0 then o else RelaxOverscroll(Relaxed(o, t, n - 1), t)
  }

  /** The per-frame overscroll retention `exp(-12*dt)`. */
  function BounceRetention(t: FrameTime): (r: real)
    requires t.Valid()
    ensures 0.0 < r <= 1.0
    ensures t.dt > 0.0 ==> r < 1.0
  {
    Pow(t.decay, BounceDecay)
  }

  /** Above the 0.1 threshold a frame of relaxation keeps the fraction `BounceRetention`. */
  lemma RelaxScales(x: real, t: FrameTime)
    requires t.Valid()
    ensures Abs(x) > OverscrollRest ==> RelaxOverscroll(x, t) == x * BounceRetention(t)
  {
  }

  /**
   * One frame of lines 84-90 for a retention `R` given as a number: keep
   * the fraction `R` of an overscroll above 0.1, zero a smaller one.
   */
  function Damp(x: real, R: real): real
  {
    if Abs(x) > OverscrollRest then x * R else 0.0
  }

  /** A value that follows both branches of `Damp` is its result. */
  lemma DampOf(x: real, R: real, r: real)
    requires Abs(x) > OverscrollRest ==> r == x * R
    requires Abs(x) <= OverscrollRest ==> r == 0.0
    ensures r == Damp(x, R)
  {
  }

  /** A frame of relaxation is a frame of damping at the retention `exp(-12*dt)`. */
  lemma RelaxIsDamp(x: real, t: FrameTime)
    requires t.Valid()
    ensures RelaxOverscroll(x, t) == Damp(x, BounceRetention(t))
  {
    RelaxScales(x, t);
    DampOf(x, BounceRetention(t), RelaxOverscroll(x, t));
  }

  /** `n` frames of `Damp`. */
  function Damped(o: real, R: real, n: nat): real
    decreases n
  {
    if n == 0 then o else Damp(Damped(o, R, n - 1), R)
  }

  /** Relaxing for `n` frames is damping for `n` frames at the retention `exp(-12*dt)`. */
  lemma {:induction false} RelaxedIsDamped(o: real, t: FrameTime, n: nat)
    requires t.Valid()
    ensures Relaxed(o, t, n) == Damped(o, BounceRetention(t), n)
    decreases n
  {
    if n > 0 {
      RelaxedIsDamped(o, t, n - 1);
      RelaxIsDamp(Relaxed(o, t, n - 1), t);
    }
  }

  /**
   * After `n` frames a damped overscroll is either exactly zero or exactly
   * the geometric decay `o * R^n` of where it started.
   */
  lemma {:induction false} DampedIsGeometric(o: real, R: real, n: nat)
    ensures Damped(o, R, n) == 0.0 || Damped(o, R, n) == o * Pow(R, n)
    decreases n
  {
    if n > 0 {
      DampedIsGeometric(o, R, n - 1);
      var P := Pow(R, n - 1);
      assert Pow(R, n) == R * P;
      if Damped(o, R, n - 1) != 0.0 {
        assert (o * P) * R == o * (R * P);
      }
    }
  }

  /** Once the damped overscroll is zero it stays zero. */
  lemma {:induction false} DampedStaysZero(o: real, R: real, m: nat, k: nat)
    requires Damped(o, R, m) == 0.0
    ensures Damped(o, R, m + k) == 0.0
    decreases k
  {
    if k > 0 {
      DampedStaysZero(o, R, m, k - 1);
      assert Damped(o, R, m + k) == Damp(Damped(o, R, m + k - 1), R);
    }
  }

  /**
   * A quantity `a` scaled by `R` once per frame for `FramesToShrink(y, R)`
   * frames is below `h` whenever `y * h >= a` (Bernoulli's inequality
   * bounds the geometric decay).
   */
  lemma ShrunkBelow(a: real, R: real, h: real, y: real)
    requires 0.0 < R < 1.0 && a >= 0.0 && h > 0.0 && y >= 0.0 && y * h >= a
    ensures a * Pow(R, FramesToShrink(y, R)) < h
  {
    var N := FramesToShrink(y, R);
    var X := Pow(R, N);
    var B := 1.0 + N as real * (1.0 - R);
    Bernoulli(R, N);
    MulStrict(y, N as real * (1.0 - R), h);
    HarmonicBoundAt(a, X, B, h);
  }

  /** If `X * B <= 1` and `B * h > h + a` then `a * X < h`. */
  lemma HarmonicBoundAt(a: real, X: real, B: real, h: real)
    requires a >= 0.0 && X > 0.0 && h > 0.0 && X * B <= 1.0 && B * h > h + a
    ensures a * X < h
  {
    MulStrict(h + a, B * h, X);
    assert (B * h) * X == (X * B) * h;
    MulMonotone(X * B, 1.0, h);
    assert (h + a) * X == h * X + a * X;
    assert h * X > 0.0;
  }

  /**
   * At a retention `R` below 1, an overscroll of `o` damps to exactly zero
   * within `FramesToShrink(10 * |o|, R) + 1` frames and stays there for any
   * number of `extra` frames.
   */
  lemma DampedReachesZero(o: real, R: real, extra: nat)
    requires 0.0 < R < 1.0
    ensures Damped(o, R, FramesToShrink(10.0 * Abs(o), R) + 1 + extra) == 0.0
  {
    var N := FramesToShrink(10.0 * Abs(o), R);
    ShrunkBelow(Abs(o), R, OverscrollRest, 10.0 * Abs(o));
    DampedSettles(o, R, N);
    DampedStaysZero(o, R, N + 1, extra);
  }

  /** Once the geometric decay `|o| * R^n` is below 0.1 the next frame zeroes the overscroll. */
  lemma DampedSettles(o: real, R: real, n: nat)
    requires 0.0 < R <= 1.0 && Abs(o) * Pow(R, n) < OverscrollRest
    ensures Damped(o, R, n + 1) == 0.0
  {
    DampedMagnitude(o, R, n);
  }

  /** The size of a damped overscroll after `n` frames: zero or `|o| * R^n`. */
  lemma DampedMagnitude(o: real, R: real, n: nat)
    requires 0.0 < R <= 1.0
    ensures Abs(Damped(o, R, n)) == 0.0 || Abs(Damped(o, R, n)) == Abs(o) * Pow(R, n)
  {
    DampedIsGeometric(o, R, n);
    AbsOfEither(o, Pow(R, n), Damped(o, R, n));
  }

  /** The size of zero or of `o * p`, for a positive `p`. */
  lemma AbsOfEither(o: real, p: real, x: real)
    requires p > 0.0 && (x == 0.0 || x == o * p)
    ensures Abs(x) == 0.0 || Abs(x) == Abs(o) * p
  {
    if x != 0.0 {
      AbsOfScaled(o, p);
    }
  }

  /** `|a * p| == |a| * p` for a positive `p`. */
  lemma AbsOfScaled(a: real, p: real)
    requires p > 0.0
    ensures Abs(a * p) == Abs(a) * p
  {
    if a < 0.0 {
      assert a * p == -((-a) * p);
    }
  }

  /**
   * A number of frames after which an overscroll of `o` has decayed below
   * the 0.1 rest threshold: the least whole number above
   * `10 * |o| / (1 - exp(-12*dt))`. For the largest recorded bounce, 60,
   * that is at most `600 / (1 - exp(-12*dt)) + 1`.
   */
  function ReturnFrames(o: real, t: FrameTime): (n: nat)
    requires t.Valid() && t.dt > 0.0
    ensures n >= 1
  {
    FramesToShrink(10.0 * Abs(o), BounceRetention(t))
  }

  /**
   * With a positive frame time the overscroll of a bounce returns to
   * exactly zero within `ReturnFrames + 1` frames and stays there for any
   * number of `extra` frames.
   */
  lemma OverscrollReturnsToZero(o: real, t: FrameTime, extra: nat)
    requires t.Valid() && t.dt > 0.0
    ensures Relaxed(o, t, ReturnFrames(o, t) + 1 + extra) == 0.0
  {
    RelaxedIsDamped(o, t, ReturnFrames(o, t) + 1 + extra);
    DampedReachesZero(o, BounceRetention(t), extra);
  }
}

=== FILE: smooth_scroll.dfy ===
/**
 * The per-window inertial scroll step `ApplySmoothScroll` (main.cpp, lines
 * 37-96) with its tuning constants (lines 13-17) and per-window state record
 * (lines 20-29).
 *
 * Each frame the wheel impulse is added to a velocity, the velocity moves a
 * target scroll position, a hit on either end of the scroll range either
 * bounces (fast hit: the velocity is reversed and an overscroll offset is
 * recorded) or stops (slow hit), the velocity and the overscroll decay, and
 * the visible scroll position eases toward the target and is written back to
 * the window.
 */
module SmoothScroll {
  import opened ImMath
  import opened Easing

  // Tuning constants (lines 13-17).
  const ScrollMultiplier: real := 50.0
  const ScrollSmoothing: nat := 8
  const BounceStrength: real := 0.15
  const BounceDecay: nat := 12
  const MaxOverscroll: real := 60.0

  // Literals of the step itself (lines 56, 64, 80, 85, 92).
  const MovingSpeed: real := 0.1
  const HardHitSpeed: real := 50.0
  const RestSpeed: real := 0.5
  const OverscrollRest: real := 0.1
  const FollowSpeed: nat := 15

  /** Per-window animation state; every field starts at zero. */
  datatype SmoothScrollState = SmoothScrollState(
    velocity: real,
    overscroll: real,
    targetScroll: real,
    currentScroll: real,
    grabAnim: real,
    alpha: real)

  const Fresh := SmoothScrollState(0.0, 0.0, 0.0, 0.0, 0.0, 0.0)

  /** `ImGuiID`. */
  type Id = nat

  /** The process-wide `g_ScrollStates` map. */
  type Store = map<Id, SmoothScrollState>

  /**
   * What `g_ScrollStates[id]` reads: the stored state, or a freshly
   * value-initialised one when the key is absent.
   */
  function StateOf(states: Store, id: Id): (s: SmoothScrollState)
    ensures id in states ==> s == states[id]
    ensures id !in states ==> s == Fresh
  {
    if id in states then states[id] else Fresh
  }

  /** The parts of an `ImGuiWindow` the step reads (`ID`, `Scroll.y`, `ScrollMax.y`). */
  datatype Window = Window(id: Id, scroll: real, scrollMax: real)

  /** A possibly-null window pointer. */
  datatype Option<T> = None | Some(value: T)

  /** The effect of one call: the state map afterwards and the window afterwards. */
  datatype Outcome = Outcome(states: Store, window: Option<Window>)

  /**
   * Lines 45-48: a state whose current and target positions both read zero
   * takes both from the window; any other state is kept.
   */
  function Adopt(s: SmoothScrollState, scroll: real): (r: SmoothScrollState)
    ensures s.currentScroll == 0.0 && s.targetScroll == 0.0 ==>
              r.currentScroll == scroll && r.targetScroll == scroll
    ensures s.currentScroll != 0.0 || s.targetScroll != 0.0 ==> r == s
    ensures r == s.(currentScroll := r.currentScroll, targetScroll := r.targetScroll)
  {
    if s.currentScroll == 0.0 && s.targetScroll == 0.0 then
      s.(currentScroll := scroll, targetScroll := scroll)
    else s
  }

  /** Lines 51-53: a non-zero wheel delta adds 50 units of velocity per notch. */
  function AddImpulse(s: SmoothScrollState, wheelDelta: real): (r: SmoothScrollState)
    ensures r.velocity - s.velocity == wheelDelta * ScrollMultiplier
    ensures r == s.(velocity := r.velocity)
  {
    if wheelDelta != 0.0 then s.(velocity := s.velocity + wheelDelta * ScrollMultiplier)
    else s
  }

  /**
   * Lines 60-75: resolve a tentative target that has left `[0, scrollMax]`.
   * The target always ends up in range, on the boundary it crossed. A fast
   * hit (speed above 50) reverses the velocity scaled down by the bounce
   * strength and records a negative overscroll of at most 60 at the top or a
   * positive one at the bottom; a slow hit stops the velocity and leaves the
   * overscroll alone. A target already in range changes nothing.
   */
  function Collide(s: SmoothScrollState, scrollMax: real): (r: SmoothScrollState)
    requires scrollMax > 0.0
    ensures 0.0 <= r.targetScroll <= scrollMax
    ensures s.targetScroll < 0.0 ==> r.targetScroll == 0.0
    ensures s.targetScroll > scrollMax ==> r.targetScroll == scrollMax
    ensures 0.0 <= s.targetScroll <= scrollMax ==> r == s
    ensures Hit(s, scrollMax) && Abs(s.velocity) > HardHitSpeed ==>
              && r.velocity == -BounceStrength * s.velocity
              && (s.velocity > 0.0 ==> r.velocity < 0.0)
              && (s.velocity < 0.0 ==> r.velocity > 0.0)
              && Abs(r.velocity) < Abs(s.velocity)
    ensures Hit(s, scrollMax) && Abs(s.velocity) <= HardHitSpeed ==>
              r.velocity == 0.0 && r.overscroll == s.overscroll
    ensures s.targetScroll < 0.0 && Abs(s.velocity) > HardHitSpeed ==>
              -MaxOverscroll <= r.overscroll < 0.0
    ensures s.targetScroll > scrollMax && Abs(s.velocity) > HardHitSpeed ==>
              0.0 < r.overscroll <= MaxOverscroll
    ensures s.targetScroll < 0.0 && Abs(s.velocity) > HardHitSpeed ==>
              r.overscroll == Max(s.targetScroll, -MaxOverscroll)
    ensures s.targetScroll > scrollMax && Abs(s.velocity) > HardHitSpeed ==>
              r.overscroll == Min(s.targetScroll - scrollMax, MaxOverscroll)
    ensures r.currentScroll == s.currentScroll && r.grabAnim == s.grabAnim && r.alpha == s.alpha
  {
    var hitTop := s.targetScroll < 0.0;
    var hitBottom := s.targetScroll > scrollMax;
    if hitTop || hitBottom then
      var bounced :=
        if Abs(s.velocity) > HardHitSpeed then
          var o := if hitTop then Clamp(s.targetScroll, -MaxOverscroll, 0.0)
                   else Clamp(s.targetScroll - scrollMax, 0.0, MaxOverscroll);
          s.(overscroll := o, velocity := s.velocity * -BounceStrength)
        else
          s.(velocity := 0.0);
      bounced.(targetScroll := Clamp(s.targetScroll, 0.0, scrollMax))
    else s
  }

  /** The tentative target lies outside the scroll range. */
  predicate Hit(s: SmoothScrollState, scrollMax: real)
  {
    s.targetScroll < 0.0 || s.targetScroll > scrollMax
  }

  /**
   * Lines 78-81: decay a velocity with the smoothing rate and snap anything
   * slower than 0.5 to rest. A velocity whose decayed speed is still at least
   * 0.5 survives the frame as exactly `v * exp(-8*dt)`; one whose decayed
   * speed falls below 0.5 stops. The direction is kept and a non-zero
   * result is at least 0.5.
   */
  function Brake(v: real, t: FrameTime): (r: real)
    requires t.Valid()
    ensures r == 0.0 || Abs(r) >= RestSpeed
    ensures Abs(r) <= Retained(v, t)
    ensures v >= 0.0 ==> r >= 0.0
    ensures v <= 0.0 ==> r <= 0.0
    ensures t.dt == 0.0 && Abs(v) >= RestSpeed ==> r == v
  {
    BrakeFacts(v, t);
    Snap(EaseOut(v, 0.0, ScrollSmoothing, t))
  }

  /**
   * Lines 78-81, when the velocity survives: a velocity whose decayed speed
   * `|v| * exp(-8*dt)` is at least 0.5 comes out as exactly `v * exp(-8*dt)`.
   */
  lemma BrakeKeepsDecayed(v: real, t: FrameTime)
    requires t.Valid()
    ensures Abs(v) * Pow(t.decay, ScrollSmoothing) >= RestSpeed ==>
              Brake(v, t) == v * Pow(t.decay, ScrollSmoothing)
  {
    SnapKeepsDecayed(v, ScrollSmoothing, t);
  }

  /** Lines 78-81, when the velocity stops: a decayed speed below 0.5 becomes exactly zero. */
  lemma BrakeStopsDecayed(v: real, t: FrameTime)
    requires t.Valid()
    ensures Abs(v) * Pow(t.decay, ScrollSmoothing) < RestSpeed ==> Brake(v, t) == 0.0
  {
    SnapStopsDecayed(v, ScrollSmoothing, t);
  }

  /** Line 80-81: a speed below 0.5 snaps to rest. */
  function Snap(v: real): real
  {
    if Abs(v) < RestSpeed then 0.0 else v
  }

  /**
   * `BrakeFactsAt` at the smoothing rate, with the decayed speed written as
   * `Retained`. Proving `Brake` from this form directly keeps its proof small;
   * relating `Retained` to the power inside `Brake` itself does not.
   */
  lemma BrakeFacts(v: real, t: FrameTime)
    requires t.Valid()
    ensures var r := Snap(EaseOut(v, 0.0, ScrollSmoothing, t));
      && (r == 0.0 || Abs(r) >= RestSpeed)
      && Abs(r) <= Retained(v, t)
      && (v >= 0.0 ==> r >= 0.0)
      && (v <= 0.0 ==> r <= 0.0)
      && (t.dt == 0.0 && Abs(v) >= RestSpeed ==> r == v)
  {
    BrakeFactsAt(v, ScrollSmoothing, t);
  }

  /**
   * Braking at any rate: the facts `Brake` states, for `exp(-speed*dt)`.
   * Stated for a general speed so that the proof never works with the
   * power at the constant exponent 8, which the verifier would expand.
   */
  lemma BrakeFactsAt(v: real, speed: nat, t: FrameTime)
    requires t.Valid()
    ensures var r := Snap(EaseOut(v, 0.0, speed, t));
      && (r == 0.0 || Abs(r) >= RestSpeed)
      && Abs(r) <= Abs(v) * Pow(t.decay, speed)
      && (v >= 0.0 ==> r >= 0.0)
      && (v <= 0.0 ==> r <= 0.0)
      && (t.dt == 0.0 && Abs(v) >= RestSpeed ==> r == v)
  {
    var eased := EaseOut(v, 0.0, speed, t);
    var p := Pow(t.decay, speed);
    DecayKeepsDirection(v, speed, t);
    SnapKeepsBounds(v, eased, p);
  }

  /**
   * Easing toward zero at any rate keeps a decayed speed of at least 0.5
   * exactly; the general-speed form behind `BrakeKeepsDecayed`.
   */
  lemma SnapKeepsDecayed(v: real, speed: nat, t: FrameTime)
    requires t.Valid()
    ensures Abs(v) * Pow(t.decay, speed) >= RestSpeed ==>
              Snap(EaseOut(v, 0.0, speed, t)) == v * Pow(t.decay, speed)
  {
    EaseToZero(v, speed, t);
    SnapScaled(v, EaseOut(v, 0.0, speed, t), Pow(t.decay, speed));
  }

  /**
   * Easing toward zero at any rate stops a decayed speed below 0.5; the
   * general-speed form behind `BrakeStopsDecayed`.
   */
  lemma SnapStopsDecayed(v: real, speed: nat, t: FrameTime)
    requires t.Valid()
    ensures Abs(v) * Pow(t.decay, speed) < RestSpeed ==>
              Snap(EaseOut(v, 0.0, speed, t)) == 0.0
  {
    EaseToZero(v, speed, t);
    SnapScaled(v, EaseOut(v, 0.0, speed, t), Pow(t.decay, speed));
  }

  /**
   * Snapping `v * p` keeps it exactly when `|v| * p` is at least 0.5: the
   * snap of lines 80-81 on an already-decayed value, with the decay as a
   * plain number.
   */
  lemma SnapScaled(v: real, eased: real, p: real)
    requires eased == v * p && Abs(eased) == Abs(v) * p
    ensures Abs(v) * p >= RestSpeed ==> Snap(eased) == v * p
    ensures Abs(v) * p < RestSpeed ==> Snap(eased) == 0.0
  {
  }

  /**
   * The snap to rest only ever replaces a slow value with zero, so it keeps
   * the bound and the direction of the decayed value; the step from the
   * easing facts to `BrakeFactsAt`.
   */
  lemma SnapKeepsBounds(v: real, eased: real, p: real)
    requires 0.0 < p <= 1.0 && Abs(eased) == Abs(v) * p
    requires v >= 0.0 ==> eased >= 0.0
    requires v <= 0.0 ==> eased <= 0.0
    ensures var r := Snap(eased);
      && (r == 0.0 || Abs(r) >= RestSpeed)
      && Abs(r) <= Abs(v) * p
      && (v >= 0.0 ==> r >= 0.0)
      && (v <= 0.0 ==> r <= 0.0)
  {
    assert 0.0 <= Abs(v) * p by { MulMonotone(0.0, Abs(v), p); }
  }

  /** Easing a velocity toward zero scales it by `exp(-speed*dt)`, keeping its direction. */
  lemma DecayKeepsDirection(v: real, speed: nat, t: FrameTime)
    requires t.Valid()
    ensures var eased := EaseOut(v, 0.0, speed, t);
      && Abs(eased) == Abs(v) * Pow(t.decay, speed)
      && (v >= 0.0 ==> eased >= 0.0)
      && (v <= 0.0 ==> eased <= 0.0)
      && (t.dt == 0.0 ==> eased == v)
  {
    EaseToZero(v, speed, t);
  }

  /**
   * Lines 56-82: a velocity faster than 0.1 moves the target by
   * `velocity * dt` (positive velocity scrolls toward the top), resolves any
   * boundary hit and then brakes; a slower velocity leaves the state as it
   * is. After a move the target is in range and the velocity is either at
   * rest or at least 0.5, never faster than before.
   */
  function Integrate(s: SmoothScrollState, scrollMax: real, t: FrameTime): (r: SmoothScrollState)
    requires scrollMax > 0.0 && t.Valid()
    ensures Abs(s.velocity) <= MovingSpeed ==> r == s
    ensures Abs(s.velocity) > MovingSpeed ==>
              && 0.0 <= r.targetScroll <= scrollMax
              && (r.velocity == 0.0 || Abs(r.velocity) >= RestSpeed)
              && Abs(r.velocity) <= Retained(s.velocity, t)
    ensures Abs(r.velocity) <= Abs(s.velocity)
    ensures Abs(s.overscroll) <= MaxOverscroll ==> Abs(r.overscroll) <= MaxOverscroll
    ensures r.currentScroll == s.currentScroll && r.grabAnim == s.grabAnim && r.alpha == s.alpha
  {
    if Abs(s.velocity) > MovingSpeed then Move(s, scrollMax, t) else s
  }

  /**
   * Lines 57-81: move the target by the velocity, resolve a boundary hit and
   * brake, for any velocity.
   */
  function Move(s: SmoothScrollState, scrollMax: real, t: FrameTime): (r: SmoothScrollState)
    requires scrollMax > 0.0 && t.Valid()
    ensures 0.0 <= r.targetScroll <= scrollMax
    ensures r.velocity == 0.0 || Abs(r.velocity) >= RestSpeed
    ensures Abs(r.velocity) <= Retained(s.velocity, t) <= Abs(s.velocity)
    ensures Abs(s.overscroll) <= MaxOverscroll ==> Abs(r.overscroll) <= MaxOverscroll
    ensures r.currentScroll == s.currentScroll && r.grabAnim == s.grabAnim && r.alpha == s.alpha
  {
    var c := Collide(s.(targetScroll := Tentative(s, t)), scrollMax);
    ShrinkBound(Abs(c.velocity), Abs(s.velocity), Pow(t.decay, ScrollSmoothing));
    c.(velocity := Brake(c.velocity, t))
  }

  /** The speed left of `v` after one frame of braking, before the snap to rest. */
  function Retained(v: real, t: FrameTime): (r: real)
    requires t.Valid()
    ensures 0.0 <= r <= Abs(v)
  {
    ShrinkBound(0.0, Abs(v), Pow(t.decay, ScrollSmoothing));
    Abs(v) * Pow(t.decay, ScrollSmoothing)
  }

  /** A smaller magnitude stays smaller after scaling by a factor in (0, 1]. */
  lemma ShrinkBound(a: real, b: real, p: real)
    requires 0.0 <= a <= b && 0.0 < p <= 1.0
    ensures a * p <= b * p <= b
  {
    MulMonotone(a, b, p);
    MulMonotone(p, 1.0, b);
  }

  /** The target a velocity faster than 0.1 would reach this frame before bounds are checked. */
  function Tentative(s: SmoothScrollState, t: FrameTime): real
  {
    s.targetScroll - s.velocity * t.dt
  }

  /**
   * Lines 56-75: where a moving velocity leaves the target, and what a hit
   * does. A tentative target outside the range is put back on the boundary
   * it crossed. Without a hit the overscroll is kept and the velocity keeps
   * its direction; a fast hit reverses the velocity and scales it down by at
   * least the bounce strength, recording a signed overscroll of at most 60;
   * a slow hit stops the velocity.
   */
  lemma IntegrateResolvesHit(s: SmoothScrollState, scrollMax: real, t: FrameTime)
    requires scrollMax > 0.0 && t.Valid()
    requires Abs(s.velocity) > MovingSpeed
    ensures var r := Integrate(s, scrollMax, t);
      var tentative := Tentative(s, t);
      && (tentative < 0.0 ==> r.targetScroll == 0.0)
      && (tentative > scrollMax ==> r.targetScroll == scrollMax)
      && (0.0 <= tentative <= scrollMax ==>
            && r.targetScroll == tentative
            && r.overscroll == s.overscroll
            && (s.velocity > 0.0 ==> r.velocity >= 0.0)
            && (s.velocity < 0.0 ==> r.velocity <= 0.0))
      && (Hit(s.(targetScroll := tentative), scrollMax) && Abs(s.velocity) > HardHitSpeed ==>
            && (s.velocity > 0.0 ==> r.velocity <= 0.0)
            && (s.velocity < 0.0 ==> r.velocity >= 0.0)
            && Abs(r.velocity) <= BounceStrength * Abs(s.velocity))
      && (Hit(s.(targetScroll := tentative), scrollMax) && Abs(s.velocity) <= HardHitSpeed ==>
            r.velocity == 0.0 && r.overscroll == s.overscroll)
      && (tentative < 0.0 && Abs(s.velocity) > HardHitSpeed ==>
            -MaxOverscroll <= r.overscroll < 0.0)
      && (tentative > scrollMax && Abs(s.velocity) > HardHitSpeed ==>
            0.0 < r.overscroll <= MaxOverscroll)
  {
  }

  /**
   * Lines 85-89: an overscroll larger than 0.1 decays toward zero with the
   * bounce rate, keeping its sign: it becomes exactly `o * exp(-12*dt)`,
   * strictly smaller once time passes. A smaller one snaps to exactly zero.
   */
  function RelaxOverscroll(o: real, t: FrameTime): (r: real)
    requires t.Valid()
    ensures Abs(o) > OverscrollRest ==> r == o * Pow(t.decay, BounceDecay)
    ensures t.dt > 0.0 && o != 0.0 ==> Abs(r) < Abs(o)
    ensures Abs(o) <= OverscrollRest ==> r == 0.0
    ensures o > OverscrollRest ==> 0.0 < r <= o
    ensures o < -OverscrollRest ==> o <= r < 0.0
    ensures Abs(r) <= Abs(o)
    ensures t.dt == 0.0 && Abs(o) > OverscrollRest ==> r == o
  {
    if Abs(o) > OverscrollRest then
      EaseToZero(o, BounceDecay, t);
      EaseOut(o, 0.0, BounceDecay, t)
    else 0.0
  }

  /**
   * Lines 92-95: the visible position eases toward the target and does not
   * overshoot it; once time passes it strictly closes any remaining gap.
   */
  function Follow(s: SmoothScrollState, t: FrameTime): (r: SmoothScrollState)
    requires t.Valid()
    ensures Min(s.currentScroll, s.targetScroll) <= r.currentScroll <= Max(s.currentScroll, s.targetScroll)
    ensures Abs(s.targetScroll - r.currentScroll) <= Abs(s.targetScroll - s.currentScroll)
    ensures t.dt > 0.0 && s.currentScroll != s.targetScroll ==>
              Abs(s.targetScroll - r.currentScroll) < Abs(s.targetScroll - s.currentScroll)
    ensures r == s.(currentScroll := r.currentScroll)
  {
    s.(currentScroll := EaseOut(s.currentScroll, s.targetScroll, FollowSpeed, t))
  }

  /**
   * The state of a scrollable window agrees with its range: the window's
   * scroll, the target and the visible position lie in `[0, scrollMax]`
   * and the overscroll is at most 60 pixels either way.
   */
  predicate Consistent(s: SmoothScrollState, w: Window)
  {
    && 0.0 <= w.scroll <= w.scrollMax
    && 0.0 <= s.targetScroll <= w.scrollMax
    && 0.0 <= s.currentScroll <= w.scrollMax
    && Abs(s.overscroll) <= MaxOverscroll
  }

  /**
   * Lines 45-95: one frame of the state of a scrollable window. Whatever the
   * wheel did, a state consistent with an unchanged range stays consistent
   * with it once the new visible position is written back; the scrollbar's
   * animation fields are not touched.
   */
  function Step(s: SmoothScrollState, w: Window, wheelDelta: real, t: FrameTime): (r: SmoothScrollState)
    requires w.scrollMax > 0.0 && t.Valid()
    ensures Consistent(s, w) ==> Consistent(r, w.(scroll := r.currentScroll))
    ensures r.grabAnim == s.grabAnim && r.alpha == s.alpha
  {
    var a := Adopt(s, w.scroll);
    var b := AddImpulse(a, wheelDelta);
    var c := Integrate(b, w.scrollMax, t);
    var d := c.(overscroll := RelaxOverscroll(c.overscroll, t));
    Follow(d, t)
  }

  /**
   * Lines 37-96. A null window or one that cannot scroll (`ScrollMax.y <= 0`)
   * leaves everything as it was, without creating a state entry. Otherwise
   * exactly that window's entry is created or updated, and the window's
   * scroll becomes the entry's new visible position.
   */
  function ApplySmoothScroll(states: Store, window: Option<Window>, wheelDelta: real, t: FrameTime): (r: Outcome)
    requires t.Valid()
    ensures window.None? || window.value.scrollMax <= 0.0 ==> r == Outcome(states, window)
    ensures window.Some? && window.value.scrollMax > 0.0 ==>
              && r.window.Some?
              && r.window.value == window.value.(scroll := r.window.value.scroll)
              && window.value.id in r.states
              && r.states == states[window.value.id := r.states[window.value.id]]
              && r.window.value.scroll == r.states[window.value.id].currentScroll
  {
    match window
    case None => Outcome(states, window)
    case Some(w) =>
      if w.scrollMax <= 0.0 then Outcome(states, window)
      else
        var s := Step(StateOf(states, w.id), w, wheelDelta, t);
        Outcome(states[w.id := s], Some(w.(scroll := s.currentScroll)))
  }
}
